=== FILE: README.md ===
# Presence-driven message status of a two-party chat

This project models the server core of a small two-person chat built on Flask-SocketIO (`app.py`). It is a pure state machine over one room. It covers three parts:

- **Presence registry.** `online_users` is a dictionary from room id to a set of live Socket.IO session ids. Only the fixed room `main_chat_room` is ever used. Its key is created by the first connect and never removed.
- **Status resolver.** A message gets one mark (delivered) when exactly one session is online and two marks (read) otherwise. A presence broadcast says the recipient is online when exactly two sessions are.
- **Coordinator.** Each inbound Socket.IO event (`connect`, `disconnect`, `send_message`) changes the registry and emits a sequence of outbound events to the room: `status_update`, `update_read_status` and `receive_message`.

The file defines the disconnect handler, the message handler and `update_online_status` twice. Flask-SocketIO keeps only the last handler registered for an event. When the file runs as a script, `socketio.run` blocks before the second copy is defined, so the first copy serves. When a WSGI server imports the module, the second copy serves. `Events.Handlers` selects the copy. The two send handlers are `Coordinator.SendV1` and `Coordinator.SendV2`. The two disconnect handlers are identical apart from the logged text and are modelled once, as `Coordinator.HandleDisconnect`.

Files:

- `presence.dfy` (module `Presence`): the registry, `Join` and `Leave`.
- `status.dfy` (module `Status`): the status decisions.
- `events.dfy` (module `Events`): the inbound and outbound events as tagged datatypes.
- `coordinator.dfy` (module `Coordinator`): one function per handler, plus `Step`.
- `session.dfy` (module `Session`): `Run` folds `Step` over a trace of inbound events, with properties of whole runs. `Live` is an independent reference definition of who is connected.

The source's own comments describe the intended rules. In three places, the code does more than those comments say. The model follows the code:

- **Count 0.** The comments give one mark when only the sender is online and two marks when sender and recipient are online (app.py:87-88, 159-160). The code computes `1 if online_count == 1 else 2`, so a count of 0 also gives two marks, as does a count of three or more (`Status.MessageStatus`).
- **Read upgrade on every two-mark message.** The comment at app.py:54 ties `update_read_status` to the second user just connecting. The comment at app.py:179-180 says the same for the second send handler. That handler, however, emits `update_read_status` after every two-mark message (app.py:178-182): at count 2 with no one newly connected, at count 3 or more, and at count 0. This is reachable whenever the second copy serves (`Coordinator.SendV2`, `Coordinator.SendV2UpgradeIffCompany`).
- **Read upgrade on connect.** The connect handler tests only the count after the join (app.py:55). For a fresh session id, this is exactly the transition from one member to two (`Coordinator.FreshConnectUpgradeIffOneToTwo`). A repeated connect of a session id that is already live, while two are online, would announce it again (`Coordinator.RepeatedConnectReannounces`). Socket.IO gives every connection a fresh session id, so this case cannot arise over the transport. It is kept only as a property of the handler's code.

In the second send handler, `is_me` is computed once on the server as `request.sid == sender_id`. It is therefore always true. The same payload goes to every member of the room, so the recipient's copy also says `is_me: true` (`Coordinator.SendV2`).

## Model

| member | source | states |
|---|---|---|
| Presence.Members | app.py:85 | The room's live sessions are read from the room key. When the key is missing they are the empty set; otherwise a session is listed exactly when it is in the room's stored set. |
| Presence.Count | app.py:107 | The online count is 0 when the room key is missing, 0 exactly when nobody is in the room, and at least 1 when someone is. |
| Presence.Join | app.py:44-46 | After a connect the room entry exists. It holds exactly the old members plus the new session. The count grows by one only for a new session. Other rooms are untouched. |
| Presence.Leave | app.py:65-66 | After a disconnect the room holds exactly the old members minus the session. The count drops by one only if the session was present. When the room entry is missing or lacks the session, the registry is returned unchanged and nothing fails. |
| Presence.JoinIdempotent | app.py:44-46 | Joining twice equals joining once. A live session's join leaves the registry unchanged, so there are no duplicates. |
| Presence.JoinThenLeaveRestores | app.py:44-66 | Joining a fresh session and then removing it restores the membership and the count. If the room entry already existed, it restores the registry exactly. |
| Status.MessageStatus | app.py:85-89 | Status is 1 exactly when the count is 1. Otherwise it is 2, including for 0 and for three or more. It is always 1 or 2. |
| Status.RecipientOnline | app.py:110 | `recipient_online` is the count-is-2 test. Whenever it holds, a message sent at that count gets two marks, and the count is neither 0 nor 1. |
| Status.UpgradeOnJoin | app.py:55 | The connect handler's upgrade test holds exactly when the presence broadcast it follows reports the recipient online. Whenever it holds, a message at that count gets two marks. |
| Status.LiveSenderStatus | app.py:87-89 | For a sender who is in the room, a message gets one mark exactly when the sender is alone. It gets two marks exactly when another session is present. |
| Status.FreshJoinUpgradeIsOneToTwo | app.py:54-58 | For a session not yet in the room, the "count after join is 2" test holds exactly when the room had one member before. |
| Coordinator.UpdateOnlineStatus | app.py:105-116 | The presence broadcast carries the room's current size. `recipient_online` holds exactly when that size is 2. |
| Coordinator.MissingRoomCountsZero | app.py:107 | With the room key missing, the count is 0, the presence broadcast is `{online_count: 0, recipient_online: false}`, and a message would get two marks. |
| Coordinator.RecipientOnlineMeaning | app.py:109-110 | For a session that is in the room, the presence broadcast says the recipient is online exactly when the room holds that session and one other session. |
| Coordinator.HandleConnect | app.py:37-58 | A connect adds the session. It first emits one `status_update` with the new size, and `recipient_online` holds iff that size is 2. It then emits `update_read_status{status:2}` if and only if the new size is 2. Nothing else is emitted. |
| Coordinator.HandleDisconnect | app.py:61-73 | A disconnect removes the session if present and never fails. It neither creates nor removes the room key. It emits exactly one `status_update` for the remaining size, and nothing else. |
| Coordinator.SendV1 | app.py:75-102 | A send fails exactly when the payload has no `message` key. Otherwise it emits exactly one `receive_message` with the sender's id, the text unchanged, the given time, the current count, and status 1 iff the count is 1. |
| Coordinator.SendV2 | app.py:147-182 | Same failure rule and the same sender, text, time and status as the first copy. `is_me` is always true. A second event, `update_read_status{status:2}`, follows the message if and only if the status is 2. |
| Coordinator.Step | app.py:37-182 | Handles each inbound event with its registered handler: connect at app.py:37, disconnect at 61 and 133, and send_message at 75 and 147. A connect leaves the room as the old members plus the session; a disconnect leaves the old members minus the session. A send's first event is the `receive_message` from that session. Under the first copy it is the first-copy payload and is the only event; under the second copy it is the second-copy payload, followed by `update_read_status` exactly when it has two marks. Only a `send_message` without a `message` key fails. A send never changes the registry. No handler touches any room other than the fixed one. |
| Coordinator.RepeatedConnectReannounces | app.py:44-58 | A repeated connect of a live session leaves the registry unchanged. It still announces the read upgrade exactly when two sessions are online. |
| Coordinator.FreshConnectUpgradeIffOneToTwo | app.py:48-58 | On a connect of a new session, `update_read_status` is emitted exactly on the transition from one member to two. |
| Coordinator.DisconnectAbsentIsNoOp | app.py:133-145 | A disconnect never emits `update_read_status`. When the room lacks the session, including when the room key is missing, it leaves the registry as it was. |
| Coordinator.ConnectThenDisconnectRestores | app.py:37-73 | Connecting a fresh session and then disconnecting it restores the membership. The two presence broadcasts report the count going up by one and then back. |
| Coordinator.SendCopiesAgree | app.py:147-171 | The two send handlers fail on the same inputs. They agree on sender, text, time and status. |
| Coordinator.SendV2UpgradeIffCompany | app.py:175-182 | For a live sender, the second copy follows the message with `update_read_status` exactly when another session is in the room. |
| Session.RunMembersAreLive | app.py:44-66 | After any trace of events, a session is in the room exactly when its last connect or disconnect in the trace was a connect. If the trace has neither for it, it is in the room exactly when it was at the start. |
| Session.RunKeepsOtherRooms | app.py:25-26 | A run never changes any entry of the registry except the fixed room's. |
| Session.StepStatusUpdates | app.py:52-102 | One successful step emits exactly one `status_update` for a connect or disconnect, and none for a message. |
| Session.RunStatusUpdatesCountPresenceChanges | app.py:52-73 | A run emits exactly as many `status_update` events as it handles connects and disconnects. |
| Session.LiveSenderMessageStatus | app.py:85-89 | After any run in which the sender is still connected, the sender's next message carrying a `message` text succeeds. Under either copy it gets one mark exactly when no other session is live. |
| Session.TwoPartyWalkthroughSecondCopy | app.py:133-196 | The same five-event session under the second copy of the handlers. Both messages carry `is_me: true` and no count. The two-mark message is followed by a second `update_read_status`. |
| Session.TwoPartyWalkthrough | app.py:37-116 | X connects, X sends, Y connects, X sends, then Y leaves. The run emits the presence broadcasts for counts 1, 2 and 1, one read upgrade, and one message with one mark followed by one with two marks, in that order. |

## Left out

- Flask app, the `/` route and template, CORS, the secret key and eventlet monkey-patching: framework and presentation plumbing (app.py:3-33).
- The Socket.IO transport: `join_room`, `leave_room`, delivery by `emit` and `socketio.emit`, and `include_self`. Outbound events are modelled as a sequence addressed to the whole room, and who actually receives each copy is not modelled.
- `datetime.now().strftime`: the timestamp is an opaque string carried by the inbound `SendMessage` event.
- `print` logging and the `__main__` port and environment handling (app.py:49, 68, 118-123, 198-200).
- The fragment at app.py:124-131: it is unreachable after `socketio.run` and refers to an undefined `user_sid`.
- Concurrency and locking around `online_users`: each handler is one atomic sequential step.
- Payload shape: `data` is modelled as a dictionary from strings to strings. A non-dictionary payload (a `TypeError` in the source) and non-string message values are not modelled; a missing `message` key is.

=== FILE: coordinator.dfy ===
/** The session coordinator: one function per Socket.IO handler, each a pure step
    from the registry to the new registry plus the events it emits. */
module Coordinator {
  import opened Presence
  import opened Status
  import opened Events

  /** `update_online_status`: the presence broadcast read from the registry. */
  function UpdateOnlineStatus(users: OnlineUsers): (e: OutEvent)
    ensures e.StatusUpdate?
    ensures e.onlineCount == |Members(users)|
    ensures e.recipientOnline <==> |Members(users)| == 2
  {
    StatusUpdate(Count(users), RecipientOnline(Count(users)))
  }

  /** Before the first connect the room key is missing: the count reads as zero
      and the presence broadcast reports nobody online. */
  lemma MissingRoomCountsZero(users: OnlineUsers)
    requires RoomId !in users
    ensures Count(users) == 0
    ensures UpdateOnlineStatus(users) == StatusUpdate(0, false)
    ensures MessageStatus(Count(users)) == Read
  {
  }

  /** For a session in the room, `recipient_online` means exactly one other
      session is there with it. */
  lemma RecipientOnlineMeaning(users: OnlineUsers, me: Sid)
    requires me in Members(users)
    ensures UpdateOnlineStatus(users).recipientOnline
        <==> exists other :: other != me && Members(users) == {me, other}
  {
    var others := Members(users) - {me};
    assert Members(users) == others + {me};
    if |Members(users)| == 2 {
      var other :| other in others;
      assert others - {other} == {} by {
        assert |others - {other}| == |others| - 1 == 0;
      }
      assert others == {other};
      assert Members(users) == {me, other};
    }
  }

  /** `handle_connect`: add the session to the room, broadcast the new count, and,
      when the room now holds two sessions, announce that earlier messages are read. */
  function HandleConnect(users: OnlineUsers, sid: Sid): (r: Reaction)
    ensures forall s :: s in Members(r.users) <==> s == sid || s in Members(users)
    ensures r.users - {RoomId} == users - {RoomId}
    ensures 1 <= |r.out| <= 2
    ensures r.out[0] == StatusUpdate(|Members(r.users)|, |Members(r.users)| == 2)
    ensures forall i :: 0 < i < |r.out| ==> r.out[i] == UpdateReadStatus(Read)
    ensures UpdateReadStatus(Read) in r.out <==> |Members(r.users)| == 2
  {
    var joined := Join(users, sid);
    var presence := [UpdateOnlineStatus(joined)];
    if UpgradeOnJoin(Count(joined)) then
      Reaction(joined, presence + [UpdateReadStatus(Read)])
    else
      Reaction(joined, presence)
  }

  /** `handle_disconnect` (both copies are the same apart from the logged text): remove the session when it is
      present, never fail, and broadcast the remaining count. */
  function HandleDisconnect(users: OnlineUsers, sid: Sid): (r: Reaction)
    ensures forall s :: s in Members(r.users) <==> s != sid && s in Members(users)
    ensures r.users - {RoomId} == users - {RoomId}
    ensures RoomId in r.users <==> RoomId in users
    ensures |r.out| == 1
    ensures r.out[0] == StatusUpdate(|Members(r.users)|, |Members(r.users)| == 2)
  {
    var left := Leave(users, sid);
    Reaction(left, [UpdateOnlineStatus(left)])
  }

  /** The first copy of `handle_message`: one `receive_message` to the room,
      stamped with the status the current count gives and with that count. */
  function SendV1(users: OnlineUsers, sid: Sid, data: map<string, string>, time: string)
    : (r: Result<seq<OutEvent>>)
    ensures r.Ok? <==> MessageKey in data
    ensures r.Ok? ==> |r.value| == 1 && r.value[0].ReceiveMessage? && r.value[0].msg.MessageV1?
    ensures r.Ok? ==> r.value[0].msg.senderId == sid
    ensures r.Ok? ==> r.value[0].msg.text == data[MessageKey]
    ensures r.Ok? ==> r.value[0].msg.time == time
    ensures r.Ok? ==> r.value[0].msg.onlineCount == |Members(users)|
    ensures r.Ok? ==> (r.value[0].msg.status == Delivered <==> |Members(users)| == 1)
    ensures r.Ok? ==> (r.value[0].msg.status == Read <==> |Members(users)| != 1)
  {
    if MessageKey !in data then
      Err(MissingMessage)
    else
      var onlineCount := Count(users);
      var message := MessageV1(sid, data[MessageKey], time, MessageStatus(onlineCount), onlineCount);
      Ok([ReceiveMessage(message)])
  }

  /** The second copy of `handle_message`: the payload drops the count and carries
      `is_me`, computed once as the request's session id against the sender's,
      and a two-mark message is followed by an `update_read_status`. */
  function SendV2(users: OnlineUsers, sid: Sid, data: map<string, string>, time: string)
    : (r: Result<seq<OutEvent>>)
    ensures r.Ok? <==> MessageKey in data
    ensures r.Ok? ==> 1 <= |r.value| <= 2 && r.value[0].ReceiveMessage? && r.value[0].msg.MessageV2?
    ensures r.Ok? ==> r.value[0].msg.senderId == sid
    ensures r.Ok? ==> r.value[0].msg.text == data[MessageKey]
    ensures r.Ok? ==> r.value[0].msg.time == time
    ensures r.Ok? ==> r.value[0].msg.isMe
    ensures r.Ok? ==> (r.value[0].msg.status == Delivered <==> |Members(users)| == 1)
    ensures r.Ok? ==> (r.value[0].msg.status == Read <==> |Members(users)| != 1)
    ensures r.Ok? ==> (|r.value| == 2 <==> r.value[0].msg.status == Read)
    ensures r.Ok? ==> forall i :: 0 < i < |r.value| ==> r.value[i] == UpdateReadStatus(Read)
  {
    if MessageKey !in data then
      Err(MissingMessage)
    else
      var senderId := sid;
      var status := MessageStatus(Count(users));
      var message := MessageV2(senderId, data[MessageKey], time, status, sid == senderId);
      var broadcast := [ReceiveMessage(message)];
      if status == Read then
        Ok(broadcast + [UpdateReadStatus(Read)])
      else
        Ok(broadcast)
  }

  /** One inbound event handled by the registered copy of the handlers. Only a
      `send_message` without a message text fails, and a failed step emits nothing
      and leaves the registry as it was. */
  function Step(handlers: Handlers, users: OnlineUsers, ev: InEvent): (r: Result<Reaction>)
    ensures r.Err? <==> ev.SendMessage? && MessageKey !in ev.data
    ensures r.Ok? && ev.SendMessage? ==> r.value.users == users
    ensures r.Ok? ==> r.value.users - {RoomId} == users - {RoomId}
    ensures ev.Connect? ==>
      (r.Ok? && forall s :: s in Members(r.value.users) <==> s == ev.sid || s in Members(users))
    ensures ev.Disconnect? ==>
      (r.Ok? && forall s :: s in Members(r.value.users) <==> s != ev.sid && s in Members(users))
    ensures ev.SendMessage? && r.Ok? ==> |r.value.out| >= 1 && r.value.out[0].ReceiveMessage? && r.value.out[0].msg.senderId == ev.sid
    ensures ev.SendMessage? && r.Ok? ==> (r.value.out[0].msg.MessageV1? <==> handlers == FirstCopy)
    ensures ev.SendMessage? && r.Ok? && handlers == FirstCopy ==> |r.value.out| == 1
    ensures ev.SendMessage? && r.Ok? && handlers == SecondCopy ==>
      (|r.value.out| == 2 <==> r.value.out[0].msg.status == Read)
  {
    match ev
    case Connect(sid) => Ok(HandleConnect(users, sid))
    case Disconnect(sid) => Ok(HandleDisconnect(users, sid))
    case SendMessage(sid, data, time) =>
      var sent := if handlers == FirstCopy then SendV1(users, sid, data, time) else SendV2(users, sid, data, time);
      match sent
      case Ok(out) => Ok(Reaction(users, out))
      case Err(e) => Err(e)
  }

  /** A repeated connect of a live session leaves the registry unchanged but still
      broadcasts; at two members it re-announces the read upgrade although no
      transition from one member to two took place. */
  lemma RepeatedConnectReannounces(users: OnlineUsers, sid: Sid)
    requires sid in Members(users)
    ensures HandleConnect(users, sid).users == users
    ensures UpdateReadStatus(Read) in HandleConnect(users, sid).out <==> |Members(users)| == 2
  {
    JoinIdempotent(users, sid);
  }

  /** On a connect of a session not yet in the room, the read upgrade is announced
      exactly when the room goes from one member to two. */
  lemma FreshConnectUpgradeIffOneToTwo(users: OnlineUsers, sid: Sid)
    requires sid !in Members(users)
    ensures UpdateReadStatus(Read) in HandleConnect(users, sid).out <==> |Members(users)| == 1
  {
    FreshJoinUpgradeIsOneToTwo(Members(users), sid);
  }

  /** A disconnect never announces a read upgrade, and it is a no-op on the
      registry when the room entry is missing or does not hold the session. */
  lemma DisconnectAbsentIsNoOp(users: OnlineUsers, sid: Sid)
    ensures UpdateReadStatus(Read) !in HandleDisconnect(users, sid).out
    ensures sid !in Members(users) ==> HandleDisconnect(users, sid).users == users
  {
  }

  /** Connecting a fresh session and disconnecting it again restores the room's
      membership, and the two presence broadcasts report the count going up by one
      and back down. */
  lemma ConnectThenDisconnectRestores(users: OnlineUsers, sid: Sid)
    requires sid !in Members(users)
    ensures Members(HandleDisconnect(HandleConnect(users, sid).users, sid).users) == Members(users)
    ensures RoomId in users ==> HandleDisconnect(HandleConnect(users, sid).users, sid).users == users
    ensures HandleConnect(users, sid).out[0].onlineCount == |Members(users)| + 1
    ensures HandleDisconnect(HandleConnect(users, sid).users, sid).out
         == [StatusUpdate(|Members(users)|, |Members(users)| == 2)]
  {
  }

  /** The two copies of the send handler agree on everything they both report:
      sender, text, time and status. */
  lemma SendCopiesAgree(users: OnlineUsers, sid: Sid, data: map<string, string>, time: string)
    ensures SendV1(users, sid, data, time).Ok? <==> SendV2(users, sid, data, time).Ok?
    ensures SendV1(users, sid, data, time).Ok? ==>
      var m1 := SendV1(users, sid, data, time).value[0].msg;
      var m2 := SendV2(users, sid, data, time).value[0].msg;
      m1.senderId == m2.senderId && m1.text == m2.text && m1.time == m2.time && m1.status == m2.status
  {
  }

  /** A live sender's message in the second copy is followed by a read upgrade
      exactly when somebody else is in the room. */
  lemma SendV2UpgradeIffCompany(users: OnlineUsers, sid: Sid, data: map<string, string>, time: string)
    requires sid in Members(users) && MessageKey in data
    ensures UpdateReadStatus(Read) in SendV2(users, sid, data, time).value
        <==> exists other :: other in Members(users) && other != sid
  {
    LiveSenderStatus(Members(users), sid);
    var out := SendV2(users, sid, data, time).value;
    assert out[0] != UpdateReadStatus(Read);
  }
}

=== FILE: events.dfy ===
/** The events the coordinator receives from the Socket.IO transport and the
    events it emits to the room, as tagged values instead of dictionaries. */
module Events {
  import opened Presence

  /** An inbound transport event. `SendMessage` carries the event's `data`
      dictionary (its values are modelled as strings) and the wall-clock
      timestamp the handler reads, which the model takes as an opaque string. */
  datatype InEvent =
    | Connect(sid: Sid)
    | Disconnect(sid: Sid)
    | SendMessage(sid: Sid, data: map<string, string>, time: string)

  /** The payload of `receive_message`. The first copy of the send handler carries
      the online count; the second drops it and carries `is_me` instead. */
  datatype Message =
    | MessageV1(senderId: Sid, text: string, time: string, status: nat, onlineCount: nat)
    | MessageV2(senderId: Sid, text: string, time: string, status: nat, isMe: bool)

  /** An outbound event; every one of them is addressed to the whole room. */
  datatype OutEvent =
    | StatusUpdate(onlineCount: nat, recipientOnline: bool)
    | UpdateReadStatus(status: nat)
    | ReceiveMessage(msg: Message)

  /** The one way a handler fails: `data['message']` raises `KeyError`. */
  datatype HandlerError = MissingMessage

  datatype Result<T> = Ok(value: T) | Err(error: HandlerError)

  /** What one handler leaves behind: the new registry and the events it emitted,
      in emission order. */
  datatype Reaction = Reaction(users: OnlineUsers, out: seq<OutEvent>)

  /** Which module-level copy of the handlers is registered. A handler registered
      twice for the same event replaces the earlier one; when the file runs as a
      script the server starts before the second copy is defined, so the first
      copy serves; when a WSGI server imports it, the second copy serves. The
      connect handler exists only once. */
  datatype Handlers = FirstCopy | SecondCopy

  /** The key of the message text in a `send_message` payload. */
  const MessageKey: string := "message"
}

=== FILE: presence.dfy ===
/** The presence registry: `online_users`, a dictionary from a room id to the set
    of session ids currently connected to that room. The server only ever uses the
    one fixed room `RoomId`; its key is created lazily by the first connect and is
    never removed, although its set may become empty. */
module Presence {

  /** A Socket.IO session id (`request.sid`), opaque to the server. */
  type Sid = string

  /** The single fixed room every connection joins. */
  const RoomId: string := "main_chat_room"

  /** `online_users`: room id to the live session ids of that room. */
  type OnlineUsers = map<string, set<Sid>>

  /** The live session ids of the room; an absent room key reads as the empty set. */
  function Members(users: OnlineUsers): (m: set<Sid>)
    ensures RoomId !in users ==> m == {}
    ensures forall s :: s in m <==> RoomId in users && s in users[RoomId]
  {
    if RoomId in users then users[RoomId] else {}
  }

  /** The online count, `len(online_users.get(ROOM_ID, set()))`. */
  function Count(users: OnlineUsers): (n: nat)
    ensures RoomId !in users ==> n == 0
    ensures n == 0 <==> Members(users) == {}
    ensures forall s :: s in Members(users) ==> n >= 1
  {
    |Members(users)|
  }

  /** The registry half of a connect: create the room entry if it is missing,
      then add the session id to it. */
  function Join(users: OnlineUsers, sid: Sid): (r: OnlineUsers)
    ensures RoomId in r
    ensures sid in Members(r)
    ensures forall s :: s in Members(r) <==> s == sid || s in Members(users)
    ensures Count(r) == if sid in Members(users) then Count(users) else Count(users) + 1
    ensures r - {RoomId} == users - {RoomId}
  {
    var room := if RoomId in users then users[RoomId] else {};
    users[RoomId := room + {sid}]
  }

  /** The registry half of a disconnect: remove the session id when the room entry
      exists and holds it; otherwise leave the registry exactly as it was. */
  function Leave(users: OnlineUsers, sid: Sid): (r: OnlineUsers)
    ensures sid !in Members(r)
    ensures forall s :: s in Members(r) <==> s != sid && s in Members(users)
    ensures Count(r) == if sid in Members(users) then Count(users) - 1 else Count(users)
    ensures sid !in Members(users) ==> r == users
    ensures RoomId in r <==> RoomId in users
    ensures r - {RoomId} == users - {RoomId}
  {
    if RoomId in users && sid in users[RoomId] then
      users[RoomId := users[RoomId] - {sid}]
    else
      users
  }

  /** A repeated join of the same session id changes nothing: the room set never
      holds duplicates. */
  lemma JoinIdempotent(users: OnlineUsers, sid: Sid)
    ensures Join(Join(users, sid), sid) == Join(users, sid)
    ensures RoomId in users && sid in Members(users) ==> Join(users, sid) == users
  {
    var once := Join(users, sid);
    assert Members(once) + {sid} == Members(once);
    if RoomId in users && sid in Members(users) {
      assert users[RoomId] + {sid} == users[RoomId];
    }
  }

  /** Joining a fresh session id and then removing it restores the membership set;
      when the room entry already existed, it restores the registry itself. */
  lemma JoinThenLeaveRestores(users: OnlineUsers, sid: Sid)
    requires sid !in Members(users)
    ensures Members(Leave(Join(users, sid), sid)) == Members(users)
    ensures Count(Leave(Join(users, sid), sid)) == Count(users)
    ensures RoomId in users ==> Leave(Join(users, sid), sid) == users
  {
  }
}

=== FILE: session.dfy ===
/** Runs of the coordinator over a sequence of inbound events, handled one at a
    time in arrival order, and the properties that hold of whole runs. */
module Session {
  import opened Presence
  import opened Status
  import opened Events
  import opened Coordinator

  /** The registry and the concatenated outbound events after handling `trace`
      in order. A failed handler emits nothing and leaves the registry alone. */
  function Run(handlers: Handlers, users: OnlineUsers, trace: seq<InEvent>): Reaction
  {
    if |trace| == 0 then Reaction(users, [])
    else
      var before := Run(handlers, users, trace[..|trace| - 1]);
      match Step(handlers, before.users, trace[|trace| - 1])
      case Ok(step) => Reaction(step.users, before.out + step.out)
      case Err(_) => before
  }

  /** Reference definition of presence: a session is live after `trace` when its
      last connect or disconnect there is a connect, or, when the trace has
      neither for it, when it was live at the start. */
  predicate Live(initial: set<Sid>, trace: seq<InEvent>, sid: Sid)
  {
    if |trace| == 0 then sid in initial
    else
      match trace[|trace| - 1]
      case Connect(s) => s == sid || Live(initial, trace[..|trace| - 1], sid)
      case Disconnect(s) => s != sid && Live(initial, trace[..|trace| - 1], sid)
      case SendMessage(_, _, _) => Live(initial, trace[..|trace| - 1], sid)
  }

  /** The number of connects and disconnects in a trace. */
  function PresenceChanges(trace: seq<InEvent>): nat
  {
    if |trace| == 0 then 0
    else PresenceChanges(trace[..|trace| - 1]) + (if trace[|trace| - 1].SendMessage? then 0 else 1)
  }

  /** The number of `status_update` events in an outbound sequence. */
  function StatusUpdates(out: seq<OutEvent>): nat
  {
    if |out| == 0 then 0
    else StatusUpdates(out[..|out| - 1]) + (if out[|out| - 1].StatusUpdate? then 1 else 0)
  }

  lemma {:induction false} StatusUpdatesAppend(a: seq<OutEvent>, b: seq<OutEvent>)
    ensures StatusUpdates(a + b) == StatusUpdates(a) + StatusUpdates(b)
    decreases |b|
  {
    if |b| != 0 {
      var c := a + b;
      assert c[..|c| - 1] == a + b[..|b| - 1];
      assert c[|c| - 1] == b[|b| - 1];
      StatusUpdatesAppend(a, b[..|b| - 1]);
    } else {
      assert a + b == a;
    }
  }

  /** The registry after a run holds exactly the sessions the reference definition
      calls live, whatever the interleaving and however often a session connects
      or disconnects. */
  lemma {:induction false} RunMembersAreLive(handlers: Handlers, users: OnlineUsers, trace: seq<InEvent>, sid: Sid)
    ensures sid in Members(Run(handlers, users, trace).users) <==> Live(Members(users), trace, sid)
    decreases |trace|
  {
    if |trace| != 0 {
      var prefix := trace[..|trace| - 1];
      RunMembersAreLive(handlers, users, prefix, sid);
    }
  }

  /** A run never touches any room other than the fixed one. */
  lemma {:induction false} RunKeepsOtherRooms(handlers: Handlers, users: OnlineUsers, trace: seq<InEvent>)
    ensures Run(handlers, users, trace).users - {RoomId} == users - {RoomId}
    decreases |trace|
  {
    if |trace| != 0 {
      RunKeepsOtherRooms(handlers, users, trace[..|trace| - 1]);
    }
  }

  /** Every connect and every disconnect emits exactly one `status_update`, and no
      message emits one, so a run emits as many as it handles presence changes. */
  lemma {:induction false} RunStatusUpdatesCountPresenceChanges(handlers: Handlers, users: OnlineUsers, trace: seq<InEvent>)
    ensures StatusUpdates(Run(handlers, users, trace).out) == PresenceChanges(trace)
    decreases |trace|
  {
    if |trace| != 0 {
      var prefix := trace[..|trace| - 1];
      var ev := trace[|trace| - 1];
      var before := Run(handlers, users, prefix);
      RunStatusUpdatesCountPresenceChanges(handlers, users, prefix);
      match Step(handlers, before.users, ev)
      case Ok(step) =>
        StatusUpdatesAppend(before.out, step.out);
        StepStatusUpdates(handlers, before.users, ev);
      case Err(_) =>
    }
  }

  /** One step emits one `status_update` for a connect or disconnect and none for
      a message. */
  lemma StepStatusUpdates(handlers: Handlers, users: OnlineUsers, ev: InEvent)
    requires Step(handlers, users, ev).Ok?
    ensures StatusUpdates(Step(handlers, users, ev).value.out) == if ev.SendMessage? then 0 else 1
  {
    var out := Step(handlers, users, ev).value.out;
    assert out[0].StatusUpdate? <==> !ev.SendMessage?;
    assert StatusUpdates(out[..1]) == if ev.SendMessage? then 0 else 1 by {
      assert out[..1][..0] == [];
    }
    if |out| == 2 {
      assert out[1] == UpdateReadStatus(Read);
      assert out[..2][..1] == out[..1];
      assert out[..2] == out;
    } else {
      assert out[..1] == out;
    }
  }

  /** No session other than `sid` is live after `trace`. */
  ghost predicate AloneAfter(initial: set<Sid>, trace: seq<InEvent>, sid: Sid)
  {
    forall other :: Live(initial, trace, other) ==> other == sid
  }

  /** After any run in which the sender is live (connected and not yet
      disconnected), the sender's next message gets one mark exactly when no other
      session is live, whichever copy of the handlers serves it. */
  lemma LiveSenderMessageStatus(handlers: Handlers, users: OnlineUsers, trace: seq<InEvent>,
                                sid: Sid, data: map<string, string>, time: string)
    requires MessageKey in data
    requires Live(Members(users), trace, sid)
    ensures var sent := Step(handlers, Run(handlers, users, trace).users, SendMessage(sid, data, time));
      sent.Ok? && sent.value.out[0].ReceiveMessage? &&
      (sent.value.out[0].msg.status == Delivered <==> AloneAfter(Members(users), trace, sid))
  {
    var now := Run(handlers, users, trace).users;
    forall other
      ensures other in Members(now) <==> Live(Members(users), trace, other)
    {
      RunMembersAreLive(handlers, users, trace, other);
    }
    LiveSenderStatus(Members(now), sid);
    var sent := Step(handlers, now, SendMessage(sid, data, time));
    assert sent.value.out[0].msg.status == Delivered <==> |Members(now)| == 1;
    if Members(now) == {sid} {
      assert AloneAfter(Members(users), trace, sid);
    } else {
      var other :| other in Members(now) && other != sid;
      assert Live(Members(users), trace, other);
    }
  }

  /** A two-party session: X connects, sends while alone, Y connects, X sends
      again, Y leaves. The first message gets one mark, Y's arrival announces the
      read upgrade, the second message gets two marks. */
  lemma TwoPartyWalkthrough()
    ensures Run(FirstCopy, map[], [
              Connect("X"),
              SendMessage("X", map[MessageKey := "hi"], "t1"),
              Connect("Y"),
              SendMessage("X", map[MessageKey := "hi"], "t2"),
              Disconnect("Y")]).out
         == [StatusUpdate(1, false),
             ReceiveMessage(MessageV1("X", "hi", "t1", Delivered, 1)),
             StatusUpdate(2, true),
             UpdateReadStatus(Read),
             ReceiveMessage(MessageV1("X", "hi", "t2", Read, 2)),
             StatusUpdate(1, false)]
  {
    var hi := map[MessageKey := "hi"];
    var t := [Connect("X"), SendMessage("X", hi, "t1"), Connect("Y"), SendMessage("X", hi, "t2"), Disconnect("Y")];
    var empty: OnlineUsers := map[];
    var alone := map[RoomId := {"X"}];
    var both := map[RoomId := {"X", "Y"}];
    assert t[..0] == [];
    assert Members(Join(empty, "X")) == {"X"};
    assert Run(FirstCopy, empty, t[..1]) == Reaction(alone, [StatusUpdate(1, false)]);
    assert t[..2][..1] == t[..1];
    assert Run(FirstCopy, empty, t[..2])
        == Reaction(alone, [StatusUpdate(1, false), ReceiveMessage(MessageV1("X", "hi", "t1", Delivered, 1))]);
    assert t[..3][..2] == t[..2];
    assert |{"X", "Y"}| == 2;
    assert {"X"} + {"Y"} == {"X", "Y"};
    assert Join(alone, "Y") == both;
    assert Run(FirstCopy, empty, t[..3]).users == both;
    assert t[..4][..3] == t[..3];
    assert Run(FirstCopy, empty, t[..4]).users == both;
    assert t[..5][..4] == t[..4];
    assert t[..5] == t;
    assert Leave(both, "Y") == alone;
  }

  /** The same two-party session served by the second copy of the handlers: the
      payloads carry `is_me` instead of the count, and the two-mark message is
      followed by one more read upgrade. */
  lemma TwoPartyWalkthroughSecondCopy()
    ensures Run(SecondCopy, map[], [
              Connect("X"),
              SendMessage("X", map[MessageKey := "hi"], "t1"),
              Connect("Y"),
              SendMessage("X", map[MessageKey := "hi"], "t2"),
              Disconnect("Y")]).out
         == [StatusUpdate(1, false),
             ReceiveMessage(MessageV2("X", "hi", "t1", Delivered, true)),
             StatusUpdate(2, true),
             UpdateReadStatus(Read),
             ReceiveMessage(MessageV2("X", "hi", "t2", Read, true)),
             UpdateReadStatus(Read),
             StatusUpdate(1, false)]
  {
    var hi := map[MessageKey := "hi"];
    var t := [Connect("X"), SendMessage("X", hi, "t1"), Connect("Y"), SendMessage("X", hi, "t2"), Disconnect("Y")];
    var empty: OnlineUsers := map[];
    var alone := map[RoomId := {"X"}];
    var both := map[RoomId := {"X", "Y"}];
    assert t[..0] == [];
    assert Members(Join(empty, "X")) == {"X"};
    assert Run(SecondCopy, empty, t[..1]) == Reaction(alone, [StatusUpdate(1, false)]);
    assert t[..2][..1] == t[..1];
    assert Run(SecondCopy, empty, t[..2])
        == Reaction(alone, [StatusUpdate(1, false), ReceiveMessage(MessageV2("X", "hi", "t1", Delivered, true))]);
    assert t[..3][..2] == t[..2];
    assert |{"X", "Y"}| == 2;
    assert {"X"} + {"Y"} == {"X", "Y"};
    assert Join(alone, "Y") == both;
    assert Run(SecondCopy, empty, t[..3]).users == both;
    assert t[..4][..3] == t[..3];
    assert Run(SecondCopy, empty, t[..4]).users == both;
    assert t[..5][..4] == t[..4];
    assert t[..5] == t;
    assert Leave(both, "Y") == alone;
  }
}

=== FILE: status.dfy ===
/** The status resolver: the pure decisions the handlers take from the online count. */
module Status {
  import opened Presence

  /** One mark: the message reached the server while only one session was online. */
  const Delivered: nat := 1
  /** Two marks: read. */
  const Read: nat := 2

  /** `1 if online_count == 1 else 2`: a count of zero reads as two marks, like
      every count of two or more. */
  function MessageStatus(onlineCount: nat): (s: nat)
    ensures s == Delivered <==> onlineCount == 1
    ensures s == Read <==> onlineCount != 1
    ensures s == Delivered || s == Read
  {
    if onlineCount == 1 then Delivered else Read
  }

  /** The `recipient_online` flag of a presence broadcast. */
  function RecipientOnline(onlineCount: nat): (online: bool)
    ensures online ==> MessageStatus(onlineCount) == Read
    ensures online ==> onlineCount != 0 && onlineCount != 1
  {
    onlineCount == 2
  }

  /** Whether a connect announces the retroactive `update_read_status`: decided
      from the count after the join alone. */
  function UpgradeOnJoin(countAfterJoin: nat): (upgrade: bool)
    ensures upgrade <==> RecipientOnline(countAfterJoin)
    ensures upgrade ==> MessageStatus(countAfterJoin) == Read
  {
    countAfterJoin == 2
  }

  /** For a sender who is live in the room, the message gets one mark exactly when
      the sender is alone, and two marks exactly when someone else is online too. */
  lemma LiveSenderStatus(members: set<Sid>, sender: Sid)
    requires sender in members
    ensures MessageStatus(|members|) == Delivered <==> members == {sender}
    ensures MessageStatus(|members|) == Read <==> exists other :: other in members && other != sender
  {
    var others := members - {sender};
    assert members == others + {sender};
    assert |members| == |others| + 1;
    if |others| != 0 {
      var other :| other in others;
      assert other in members && other != sender;
    } else {
      assert others == {};
    }
  }

  /** When the joining session id was not yet in the room, the retroactive upgrade is
      announced exactly on the transition from one member to two. */
  lemma FreshJoinUpgradeIsOneToTwo(before: set<Sid>, sid: Sid)
    requires sid !in before
    ensures UpgradeOnJoin(|before + {sid}|) <==> |before| == 1
  {
  }
}
